=== FILE: README.md ===
# A verified model of a small Rust ray tracer's core

This project models the core of a Whitted-style ray tracer written in Rust.
The model is in Dafny and proves properties about it. The core covers:

- the vector algebra (`Vec3`, `Ray`);
- colours and their byte conversions;
- directional and point lights;
- the `Surface` trait's default `hit` and the `HitInfo` record;
- the background pseudo-surface;
- the camera: its basis, pixel-to-ray mapping, nearest-hit scan and rendering loop;
- the `Screen` pixel grid and its cell iterator.

Modules follow the source files; `src/surface.rs` and `src/camera.rs` each give two modules:

| module | file | models |
|---|---|---|
| `Math` | `math.dfy` | `src/math.rs`: vectors over exact reals, and distances carried by their squares |
| `Colors` | `color.dfy` | `src/color.rs`: colour arithmetic, `u8` conversions, `From<u32>` |
| `Lights` | `light.dfy` | `src/light.rs` |
| `HitInfos` | `hitinfo.dfy` | `HitInfo` in `src/surface.rs` |
| `Background` | `background.dfy` | `src/background.rs` |
| `Surfaces` | `surface.dfy` | the `Surface` trait of `src/surface.rs`, as a closed datatype |
| `Screens` | `screen.dfy` | `Screen` and its `Iterator` impl in `src/camera.rs` |
| `Cameras` | `camera.dfy` | `Camera` in `src/camera.rs` |
| `Optional` | `option.dfy` | Rust's `Option` |

## Modelling choices

- **Numbers.** `f64` is modelled by exact reals, so NaN, infinities and rounding are absent. `f64::INFINITY` occurs as a distance bound and as a hit position. It appears explicitly in two places:
  - distances are `Dist = Finite(sq) | Infinite`;
  - a hit position is `Position = At(p) | AtInfinity(direction)`.
- **Square roots.** They are not modelled.
  - `normalize` takes the reciprocal magnitude `k` as an argument. Unit length is proved when `k` really is `1 / mag(v)` (`IsInverseMagnitude`).
  - Every `mag()` the source compares is carried by its square. `sqrt` is strictly increasing on non-negative reals, so every `<` between two such distances has the same outcome as between their squares.
- **Integer casts.** `f64 as u8` saturates and truncates (`SaturatingToByte`). `u32 as u8` keeps the low byte (`LowByte`). Both are written out.
- **Trait objects.**
  - `Box<dyn Surface>` is a closed datatype with two variants.
  - `Shape` stands for the plane and sphere meshes, which are not part of this model. Its `surface_hit`, normal, material and shadow test are function fields.
  - `Shape`'s material has the scene, the lights and the bounce budget (`10` in `render_scene`) already bound. That is also where the lighting and reflection recursion of the materials lives.
  - `Backdrop` is `BackgroundSurface`. Its texture lookup and its normal (`-hit.normalize()`) are function fields.
- **Byte casts.** Rust's `f64 as u8` truncates toward zero and saturates, so out-of-range channels saturate rather than wrap; the model follows the cast.

## Model

| member | source | states |
|---|---|---|
| Math.FromTuple | src/math.rs:110-114 | the vector's components are the tuple's, in order |
| Math.Div | src/math.rs:98-108 | dividing by `k` is scaling by `1/k` |
| Math.Mag2 | src/math.rs:24-26 | the squared magnitude is the vector dotted with itself, and is never negative |
| Math.LinearCombine | src/math.rs:40-50 | `linear_combine` builds the same vector as the sum of the three scaled vectors under the operator impls |
| Math.Normalize | src/math.rs:15-18 | the result is parallel to the input (their cross product is zero) and, for a positive factor, on the same side of it; given the true reciprocal magnitude it has unit length |
| Math.DotSymmetric | src/math.rs:20-22 | the dot product is symmetric |
| Math.AddCommutative | src/math.rs:53-63 | vector addition is commutative |
| Math.SubInvertsAdd | src/math.rs:53-75 | subtraction undoes addition, and addition undoes subtraction |
| Math.Cross | src/math.rs:32-38 | a vector crossed with itself, or with the zero vector, is the zero vector |
| Math.CrossAntiCommutative | src/math.rs:32-38 | swapping the operands of `cross` negates the result |
| Math.CrossOrthogonal | src/math.rs:32-38 | `a × b` is orthogonal to both `a` and `b` |
| Math.CrossMag2 | src/math.rs:32-38 | Lagrange's identity: the squared magnitude of `a × b` is the product of the squared magnitudes of `a` and `b`, minus `(a·b)²` |
| Math.ScaleMag2 | src/math.rs:85-95 | scaling by `k` scales the squared magnitude by `k²` |
| Math.DotScale | src/math.rs:77-95 | the dot product is linear in a scaled operand |
| Math.DotLinearCombine | src/math.rs:40-50 | a linear combination dotted with `t` is the same combination of the dot products with `t` |
| Math.Length | src/math.rs:28-30 | `mag(v)` is a finite distance whose square is `mag2(v)`, hence non-negative |
| Math.CloserStrictTotalOrder | src/surface.rs:9 | the `<` between distances, with infinity above every finite value, is irreflexive, transitive, asymmetric and total on distinct values |
| Colors.AddCommutative | src/color.rs:18-28 | colour addition is commutative |
| Colors.ModulateCommutative | src/color.rs:30-40 | the channel-wise product of two colours is commutative |
| Colors.ScaleLaws | src/color.rs:30-52 | scaling by 1 is the identity; scaling twice multiplies the factors; scaling is the channel-wise product with a grey colour |
| Colors.Channel | src/color.rs:63-71 | a byte read as a channel lies in [0, 1] and is the byte over 255 |
| Colors.SaturatingToByte | src/color.rs:83-86 | `as u8` gives 0 below 1 and 255 at 255 or above; in between it gives the byte whose unit interval contains the value |
| Colors.FromRgb8 | src/color.rs:63-71 | each channel is its byte over 255, and so lies in [0, 1] |
| Colors.FromRgba8 | src/color.rs:73-81 | the fourth byte is ignored; the colour is that of the first three |
| Colors.ToRgb8 | src/color.rs:83-86 | each channel becomes 255 at 1 or above, 0 at 0 or below, and in between the largest byte not above 255 times the channel |
| Colors.BytesRoundTrip | src/color.rs:63-86 | converting bytes to a colour and back returns the same bytes |
| Colors.ToRgb8Below | src/color.rs:63-86 | for channels in [0, 1), converting to bytes and back gives a colour at most 1/255 below the original in each channel, and never above it |
| Colors.FromU32 | src/color.rs:54-61 | as written, every word converts to a colour with no red and no green, and with blue taken from bits 8 and 9 of the word, placed at the top of the byte |
| Colors.FromU32AsWritten | src/color.rs:54-61 | the shifts as written give red 0 and green 0, and blue from only bits 8 and 9 of the word |
| Colors.FromU32LosesRed | src/color.rs:54-61 | the word 0xFF000000 converts with red 0, not 255 |
| Colors.PackedBytesRoundTrip | src/color.rs:54-61 | the intended conversion returns the red, green and blue bytes a word was packed from |
| Colors.FromPacked | src/color.rs:54-61 | the intended conversion sends the word 0 to black |
| Colors.ZeroIsBlack | src/surface.rs:46-52 | `0.into()`, the colour of an untinted hit, is black under both the written and the intended conversion |
| Lights.NewDirectional | src/light.rs:20-25 | the stored colour is the colour times the brightness; the stored direction is parallel to the given one and on its side, and has unit length given the true reciprocal magnitude |
| Lights.LightDirection | src/light.rs:29-66 | a directional light returns its stored direction; a point light returns a vector parallel to the one from the hit point to the light, on its side, and of unit length given the true reciprocal magnitude |
| Lights.NewPoint | src/light.rs:49-55 | the point is kept, the colour is scaled by the brightness, and falloff starts off |
| Lights.WithFalloff | src/light.rs:57-60 | falloff is switched on; the point and the colour are kept |
| Lights.DistTo | src/light.rs:68-70 | the distance to a light is infinite exactly for a directional light (lines 33-35); for a point light it is `mag(point - p)`, carried by its square `mag2(point - p)` |
| Lights.LightColor | src/light.rs:72-78 | directional lights and point lights without falloff give their stored colour; with falloff, the colour times the squared distance is the stored colour |
| Lights.ConstantWithoutFalloff | src/light.rs:72-78 | without falloff, a point light's colour depends on neither the position nor the normal |
| Lights.DirectionalIgnoresGeometry | src/light.rs:29-39 | a directional light's direction, colour and distance are the same at every point |
| Lights.InverseSquareFalloff | src/light.rs:72-78 | scaling the displacement from the light by `k` divides the falloff colour by `k²` |
| HitInfos.NewHitInfo | src/surface.rs:33-39 | position and normal are kept, and the colour reads as black |
| HitInfos.Tint | src/surface.rs:41-44 | after tinting, the colour reads as the tint; position and normal are unchanged |
| HitInfos.ColorOf | src/surface.rs:46-52 | the tint if there is one, black otherwise |
| HitInfos.TintOverrides | src/surface.rs:41-44 | tinting twice keeps only the last colour |
| Background.SurfaceHit | src/background.rs:63-68 | the background offers a candidate exactly when the minimum distance is infinite, and the candidate is the ray's direction |
| Background.ShadowHit | src/background.rs:70-72 | the background never occludes a light |
| Background.CalcMat | src/background.rs:48-51 | the shading always succeeds: it keeps the normal, places the hit at infinity along the normal, and colours it with the texture sample along the normal |
| Surfaces.ShadowHit | src/surface.rs:22 | a background surface never occludes a light (src/background.rs:70-72) |
| Surfaces.Hit | src/surface.rs:7-14 | no candidate gives no hit; a hit implies the candidate is strictly closer to the ray's origin than the minimum; a strictly closer candidate gives exactly the material's result |
| Surfaces.TieRejected | src/surface.rs:9 | a candidate exactly at the minimum distance is rejected |
| Surfaces.BackdropHit | src/background.rs:48-68 | through `hit`, the background is shaded exactly while the minimum is infinite; it then gets the texture colour along its normal at the ray direction, and is placed at infinity |
| Screens.InitScreen | src/camera.rs:92-101 | `width` columns of `height` pixels, all black |
| Screens.NewScreen | src/camera.rs:88-90 | the sizes are kept, the grid is all black, and the cursor is at `(0, 0)` |
| Screens.Advance | src/camera.rs:115-119 | only the cursor changes; it moves exactly one cell on in row-major order, wrapping to the start of the next row at the end of a row, and its row never decreases |
| Screens.Next | src/camera.rs:112-126 | the cursor advances first; a cell is yielded exactly when the new row is on the grid, and that cell is the new cursor, which lies inside the grid when the width is at least 1 |
| Screens.ExhaustedStaysExhausted | src/camera.rs:112-126 | once `next` returns `None`, every later call does too |
| Screens.RemainingRowMajor | src/camera.rs:112-126 | from any cursor, the iterator yields in-grid cells with consecutive row-major indices, starting just after the cursor and ending at the last cell |
| Screens.FreshIteration | src/camera.rs:112-126 | from a new screen, the iterator yields `width*height - 1` cells in strictly increasing row-major order: every cell of the grid except `(0, 0)` |
| Screens.NextFixed | src/camera.rs:112-126 | the intended iterator yields the cursor exactly while it is on the grid, and then advances |
| Screens.FixedIsCursorThenRemaining | src/camera.rs:112-126 | the intended iterator yields the cursor and then exactly what the written one yields |
| Screens.FixedFreshIteration | src/camera.rs:112-126 | from a new screen, the intended iterator yields all `width*height` cells, `(0, 0)` first |
| Cameras.NewCamera | src/camera.rs:17-29 | whatever the normalisation factors, `u` is orthogonal to `up` and `w`, and `v` is orthogonal to `w` and `u`; `w` is parallel to `eye - look_at` and, given a positive factor, points from the look-at point towards the eye; `u` is parallel to `up × w` and on its side, `v` is `w × u`, and the stored `up` is parallel to the given one and on its side |
| Cameras.CameraBasisOrthonormal | src/camera.rs:17-29 | with the true reciprocal magnitudes, `(u, v, w)` is orthonormal |
| Cameras.FactorU | src/camera.rs:32 | the centre of every column lies strictly inside the physical width |
| Cameras.FactorV | src/camera.rs:33 | the centre of every row lies strictly inside the physical height |
| Cameras.FactorUBounds | src/camera.rs:32 | column centres lie strictly inside the physical width, and mirrored columns have opposite offsets |
| Cameras.FactorVBounds | src/camera.rs:33 | row centres lie strictly inside the physical height, and mirrored rows have opposite offsets |
| Cameras.FactorVDecreasing | src/camera.rs:33 | lower rows have strictly smaller vertical offsets, strictly inside the physical height |
| Cameras.PixelToRay | src/camera.rs:31-43 | primary rays start at the eye |
| Cameras.PrimaryRayCoordinates | src/camera.rs:31-43 | in an orthonormal basis, the ray direction has coordinates `(factor_u, factor_v, -screen_dist)` |
| Cameras.Step | src/camera.rs:57-62 | a surface that does not answer leaves the state unchanged; one that answers sets the result to its colour; a result once set is never cleared |
| Cameras.Scan | src/camera.rs:53-65 | while the scan has no result, the minimum distance is still infinite |
| Cameras.ScanNothingYet | src/camera.rs:53-65 | the scan has no result exactly when no surface answers at infinite minimum distance, and then the minimum is still infinite |
| Cameras.TraceRay | src/camera.rs:53-65 | `trace_ray` returns `None` exactly when no surface hits at infinite minimum distance |
| Cameras.Trace | src/camera.rs:45-51 | a miss is black; a hit gives the byte conversion of the traced colour |
| Cameras.PrimaryRayGateAgrees | src/camera.rs:57-62 | for a ray from the eye, `hit`'s gate on the distance from the ray's origin matches the distance from the eye that the scan records |
| Cameras.StepFixed | src/camera.rs:57-62 | one step over a fixed hit replaces the state exactly when that hit is strictly closer than the minimum |
| Cameras.StepOfFixedHits | src/camera.rs:57-62 | one more loop iteration over a fixed hit moves the scan state from the earliest strictly nearest hit among the first `m` surfaces to that among the first `m + 1` |
| Cameras.ScanOfFixedHits | src/camera.rs:53-65 | after any prefix, the scan state is the earliest strictly nearest hit's distance and colour, or the start state when nothing is at a finite distance |
| Cameras.NearestHit | src/camera.rs:53-65 | over primary rays, `trace_ray` misses exactly when no surface is at a finite distance; otherwise it returns the colour of the nearest surface, the earliest one on ties |
| Cameras.BackgroundSkippedAfterFiniteHit | src/camera.rs:57-62 | once a finite hit has been accepted, a background surface changes nothing |
| Cameras.BackgroundIsFallback | src/camera.rs:57-62 | while nothing finite is hit, a background takes the texture colour along the ray and leaves the minimum infinite |
| Cameras.Paint | src/camera.rs:67-73 | exactly the listed cells get their traced colour; every other pixel and every other field is kept |
| Cameras.RenderScene | src/camera.rs:67-73 | exactly the cells the iterator yields are traced, and the rest are kept; on a new screen, every pixel except `(0, 0)` |
| Cameras.RenderSceneFixed | src/camera.rs:67-73 | with the intended iterator, every pixel of a new screen gets its traced colour |

## Left out

- Floating point: NaN, IEEE infinities produced by arithmetic, and rounding. The only infinity modelled is `f64::INFINITY` as used for distance bounds and the background's hit position.
- Math.Div: requires a non-zero divisor. Dividing by zero yields IEEE infinities, which exact reals lack.
- Math.Normalize: takes the reciprocal magnitude as an argument, because square roots are not modelled. So do `Lights.NewDirectional`, `Lights.LightDirection` and `Cameras.NewCamera`. `mag` is carried by its square (`Math.Length`).
- Math.Mag2: does not state that only the zero vector has squared magnitude 0. `Lights.LightColor` therefore requires a non-zero squared distance directly; at the light's own point the source divides by zero.
- Lights.LightColor: requires the shaded point to differ from the light's point when falloff is on, for the same reason.
- Lights.DistTo: a point light's distance is carried by its square.
- `Background::sample` (trigonometry and an image lookup) and `BackgroundSurface::get_normal` (a square root): carried as function fields of the background. For the same reason, `BackgroundSurface::new`, which loads the image, is not modelled.
- Background.CalcMat: `hit_normal * f64::INFINITY` is the sentinel `AtInfinity(hit_normal)`, whose distance from the eye the scan records as infinite (`Cameras.EyeDistance`). In IEEE arithmetic this diverges when the ray direction, and so the normal `-hit.normalize()`, has a zero component: `0 * INFINITY` is NaN, so `min_distance` becomes NaN at src/camera.rs:59. After that both `… < min_distance` (src/surface.rs:9) and `min_distance >= INFINITY` (src/background.rs:64) are false, so no later surface is accepted and the background colour is final. The model keeps the minimum infinite, so a later surface can still replace the background (`Cameras.BackgroundIsFallback`). The two agree whenever the background is the last surface of the scene, as in the repository's background example.
- Vec3 has no `Neg` impl in `src/math.rs`, yet `src/background.rs` negates a vector. `src/lib.rs` declares no `background` module and no `INV_TAU`. The background is modelled as evidently intended.
- `Ray::new` is called at src/camera.rs:35 but not defined in src/math.rs; `Vec3::new` only builds the value. The model uses the datatype constructors.
- `Screen::export` (PNG output through the `image` crate) is file I/O.
- Lighting, shadows and the reflection recursion of the materials, and the plane and sphere intersection tests: `src/materials.rs` and `src/meshes.rs` are not part of this model. They enter only through a `Shape`'s function fields.
- `EPSILON` (src/light.rs:4) is declared but unused in the modelled files; the intersection and shadow tests that use it are left out with the meshes and materials.
- The demo programs (`src/main.rs` and the repository's example binaries): scene set-up and I/O.
- Cameras.RenderScene: requires a width of at least 1. With width 0 and height at least 2, the source's iterator yields `(0, 1)`, and indexing the empty pixel grid panics.
- Cameras.NearestHit: proved for surfaces that act as a fixed hit along the ray (`FixedAt`). This covers primary rays, where the ray starts at the eye (`Cameras.PrimaryRayGateAgrees`). For a ray from elsewhere, the source gates on the distance from the ray's origin but records the distance from the eye. The scan is then modelled exactly as written (`Cameras.Scan`), but no nearest-hit property is claimed.
- `usize` overflow of pixel indices and of `current`: the model uses unbounded naturals.
- Screens: `RenderScene` precomputes the yielded cells with `Remaining` instead of calling `next` inside the loop. `Remaining` is `next` iterated until its first `None`. `CursorOk` holds for every `Screen` built by `new` and advanced by `next` while `width` is unchanged, as every caller in the repository does; `width` is public, so a caller that shrinks it can break `CursorOk`.

## Findings

| source | as written | input that shows it | evidently intended | confidence | as-written member | corrected member |
|---|---|---|---|---|---|---|
| src/color.rs:56-58 | the masked channels are shifted right by 6, 4 and 2 bits, then truncated to `u8` | `0xFF000000` gives red 0; every word gives red 0 and green 0 | shift by 24, 16 and 8 bits, so that each channel byte lands in the low byte | high, not executed | Colors.FromU32AsWritten | Colors.PackedBytesRoundTrip |
| src/camera.rs:115-125 | `next` advances the cursor before yielding it, and the cursor starts at `(0, 0)` | any new screen with width and height of at least 1: `(0, 0)` is never yielded, so `render_scene` never traces that pixel and it stays black | yield the cursor, then advance | high, not executed | Screens.FreshIteration | Cameras.RenderSceneFixed |

=== FILE: background.dfy ===
/**
 * The background pseudo-surface of `src/background.rs`: it answers a hit
 * only while nothing closer has been found, and never casts a shadow. Its
 * material tints the hit with the texture colour in the direction of the
 * normal and places the hit at infinity.
 *
 * The texture lookup (`Background::sample`, trigonometry over an image) and
 * `get_normal` (`-hit.normalize()`, a square root) are carried as functions
 * of the surface rather than modelled.
 */
module Background {
  import opened Optional
  import opened Math
  import opened Colors
  import opened HitInfos

  datatype BackgroundSurface = BackgroundSurface(inwardNormal: Vec3 -> Vec3, sample: Vec3 -> Color)

  /** `BackgroundSurface::surface_hit`: the ray's direction, and only while the current minimum is infinite. */
  function SurfaceHit(bg: BackgroundSurface, ray: Ray, minDistance: Dist): (h: Option<Vec3>)
    ensures h.Some? <==> minDistance.Infinite?
    ensures h.Some? ==> h.value == ray.direction
  {
    if minDistance.Infinite? then Some(ray.direction) else None
  }

  /** `BackgroundSurface::shadow_hit`: the background never occludes a light. */
  function ShadowHit(bg: BackgroundSurface, ray: Ray, lightDistance: Dist): (occluded: bool)
    ensures !occluded
  {
    false
  }

  /** `BackgroundSurface::get_normal`. */
  function GetNormal(bg: BackgroundSurface, hit: Vec3): Vec3
  {
    bg.inwardNormal(hit)
  }

  /**
   * `Background::calc_mat`: always a hit, at infinity along the normal,
   * keeping the normal, tinted with the texture colour sampled along it.
   */
  function CalcMat(bg: BackgroundSurface, prevRay: Ray, hitPosition: Vec3, hitNormal: Vec3): (info: Option<HitInfo>)
    ensures info.Some?
    ensures info.value.normal == hitNormal
    ensures info.value.position == AtInfinity(hitNormal)
    ensures ColorOf(info.value) == bg.sample(hitNormal)
  {
    Some(Tint(NewHitInfo(AtInfinity(hitNormal), hitNormal), bg.sample(hitNormal)))
  }
}

=== FILE: camera.dfy ===
/**
 * The camera of `src/camera.rs`: its basis, the mapping from pixels to
 * primary rays, the nearest-hit scan over the scene, and rendering a screen.
 *
 * The scan keeps the current minimum distance, starting at infinity, and
 * the colour of the last accepted surface. A surface's `hit` gates on the
 * distance from the ray's origin, while the scan stores the distance of the
 * accepted hit's position from the eye; for primary rays the origin is the
 * eye, so the two agree.
 */
module Cameras {
  import opened Optional
  import opened Math
  import opened Colors
  import opened HitInfos
  import opened Surfaces
  import opened Screens

  datatype Camera = Camera(eye: Vec3, lookAt: Vec3, screenDist: real, up: Vec3, u: Vec3, v: Vec3, w: Vec3)

  /** Three unit vectors, pairwise orthogonal. */
  predicate Orthonormal(u: Vec3, v: Vec3, w: Vec3)
  {
    Mag2(u) == 1.0 && Mag2(v) == 1.0 && Mag2(w) == 1.0 &&
    Dot(u, v) == 0.0 && Dot(u, w) == 0.0 && Dot(v, w) == 0.0
  }

  /**
   * `Camera::new`: `w` along `eye - look_at`, `u = up × w` and `v = w × u`,
   * with `w`, `u` and the stored `up` normalised. `invW`, `invU` and `invUp`
   * stand for the reciprocal magnitudes `normalize` divides by. Whatever they
   * are, `u` is orthogonal to `up` and `w`, and `v` to both `u` and `w`;
   * `u` lies along `up × w`, `v` is `w × u`, and the stored `up` lies along
   * the given one, each on the same side for a positive factor.
   */
  function NewCamera(eye: Vec3, lookAt: Vec3, screenDist: real, up: Vec3, invW: real, invU: real, invUp: real): (c: Camera)
    ensures c.eye == eye && c.lookAt == lookAt && c.screenDist == screenDist
    ensures Cross(c.w, Sub(eye, lookAt)) == Zero
    ensures invW > 0.0 ==> Dot(c.w, Sub(eye, lookAt)) >= 0.0
    ensures Dot(c.u, c.w) == 0.0 && Dot(c.u, up) == 0.0
    ensures Dot(c.v, c.w) == 0.0 && Dot(c.v, c.u) == 0.0
    ensures Cross(c.u, Cross(up, c.w)) == Zero
    ensures invU > 0.0 ==> Dot(c.u, Cross(up, c.w)) >= 0.0
    ensures c.v == Cross(c.w, c.u)
    ensures Cross(c.up, up) == Zero
    ensures invUp > 0.0 ==> Dot(c.up, up) >= 0.0
  {
    var w := Normalize(Sub(eye, lookAt), invW);
    var side := Cross(up, w);
    var u := Normalize(side, invU);
    var v := Cross(w, u);
    CrossOrthogonal(up, w);
    DotScale(side, invU, w);
    DotScale(side, invU, up);
    CrossOrthogonal(w, u);
    DotSymmetric(v, w);
    Camera(eye, lookAt, screenDist, Normalize(up, invUp), u, v, w)
  }

  /**
   * When the supplied factors are the true reciprocal magnitudes (`eye`
   * differs from `look_at` and `up` is not parallel to the view direction),
   * the basis `(u, v, w)` is orthonormal.
   */
  lemma CameraBasisOrthonormal(eye: Vec3, lookAt: Vec3, screenDist: real, up: Vec3, invW: real, invU: real, invUp: real)
    requires IsInverseMagnitude(Sub(eye, lookAt), invW)
    requires IsInverseMagnitude(Cross(up, Normalize(Sub(eye, lookAt), invW)), invU)
    ensures var c := NewCamera(eye, lookAt, screenDist, up, invW, invU, invUp);
      Orthonormal(c.u, c.v, c.w)
  {
    var c := NewCamera(eye, lookAt, screenDist, up, invW, invU, invUp);
    CrossMag2(c.w, c.u);
    assert Mag2(c.v) == Mag2(c.w) * Mag2(c.u) - Dot(c.w, c.u) * Dot(c.w, c.u);
    DotSymmetric(c.w, c.u);
    DotSymmetric(c.u, c.v);
    DotSymmetric(c.v, c.w);
  }

  // ---------------------------------------------------------------------------
  // Primary rays
  // ---------------------------------------------------------------------------

  /** `factor_u`: the horizontal offset on the view plane of the centre of column `x`, strictly inside the physical width. */
  function FactorU(x: nat, width: nat, realWidth: real): (r: real)
    requires width > 0
    ensures x < width && realWidth > 0.0 ==> -realWidth / 2.0 < r < realWidth / 2.0
  {
    CentreInside(x as real, width as real, realWidth);
    (x as real + 0.5) * (realWidth / width as real) - 0.5 * realWidth
  }

  /**
   * `factor_v`: the vertical offset on the view plane of the centre of row
   * `y`, strictly inside the physical height; rows grow downwards.
   */
  function FactorV(y: nat, height: nat, realHeight: real): (r: real)
    requires height > 0
    ensures y < height && realHeight > 0.0 ==> -realHeight / 2.0 < r < realHeight / 2.0
  {
    CentreInside(y as real, height as real, realHeight);
    0.5 * realHeight - (y as real + 0.5) * (realHeight / height as real)
  }

  /** The centre of cell `i` of `n` equal cells along a length `len` lies strictly inside that length. */
  lemma CentreInside(i: real, n: real, len: real)
    ensures 0.0 <= i && i + 1.0 <= n && len > 0.0 ==> 0.0 < (i + 0.5) * (len / n) < len
  {
    if 0.0 <= i && i + 1.0 <= n && len > 0.0 {
      var step := len / n;
      assert step * n == len;
      assert step > 0.0;
      MulStrictlyMonotone(i + 0.5, n, step);
    }
  }

  /**
   * Every column centre lies strictly inside the screen's physical width,
   * and mirrored columns have opposite offsets.
   */
  lemma FactorUBounds(x: nat, width: nat, realWidth: real)
    requires x < width && realWidth > 0.0
    ensures -realWidth / 2.0 < FactorU(x, width, realWidth) < realWidth / 2.0
    ensures FactorU(width - 1 - x, width, realWidth) == -FactorU(x, width, realWidth)
  {
    var step := realWidth / width as real;
    assert step * width as real == realWidth;
    assert ((width - 1 - x) as real + 0.5) * step == width as real * step - (x as real + 0.5) * step;
  }

  /**
   * Every row centre lies strictly inside the screen's physical height,
   * and mirrored rows have opposite offsets.
   */
  lemma FactorVBounds(y: nat, height: nat, realHeight: real)
    requires y < height && realHeight > 0.0
    ensures -realHeight / 2.0 < FactorV(y, height, realHeight) < realHeight / 2.0
    ensures FactorV(height - 1 - y, height, realHeight) == -FactorV(y, height, realHeight)
  {
    var step := realHeight / height as real;
    assert step * height as real == realHeight;
    assert ((height - 1 - y) as real + 0.5) * step == height as real * step - (y as real + 0.5) * step;
  }

  /** Lower rows map to strictly lower offsets, all strictly inside the physical height. */
  lemma FactorVDecreasing(y1: nat, y2: nat, height: nat, realHeight: real)
    requires y1 < y2 < height && realHeight > 0.0
    ensures FactorV(y2, height, realHeight) < FactorV(y1, height, realHeight)
    ensures -realHeight / 2.0 < FactorV(y2, height, realHeight) < realHeight / 2.0
  {
    var step := realHeight / height as real;
    assert step > 0.0;
    MulStrictlyMonotone(y1 as real + 0.5, y2 as real + 0.5, step);
  }

  lemma MulStrictlyMonotone(a: real, b: real, c: real)
    requires a < b && c > 0.0
    ensures a * c < b * c
  {
    assert b * c - a * c == (b - a) * c;
  }

  /** `Camera::pixel_to_ray`: from the eye, towards the pixel's centre on the view plane `screen_dist` in front. */
  function PixelToRay(c: Camera, x: nat, y: nat, screen: Screen): (ray: Ray)
    requires screen.width > 0 && screen.height > 0
    ensures ray.origin == c.eye
  {
    Ray(c.eye, LinearCombine(FactorU(x, screen.width, screen.realSize.0), c.u,
                             FactorV(y, screen.height, screen.realSize.1), c.v,
                             -c.screenDist, c.w))
  }

  /** In an orthonormal camera basis, a primary ray's direction has coordinates `(factor_u, factor_v, -screen_dist)`. */
  lemma PrimaryRayCoordinates(c: Camera, x: nat, y: nat, screen: Screen)
    requires screen.width > 0 && screen.height > 0
    requires Orthonormal(c.u, c.v, c.w)
    ensures var d := PixelToRay(c, x, y, screen).direction;
      Dot(d, c.u) == FactorU(x, screen.width, screen.realSize.0) &&
      Dot(d, c.v) == FactorV(y, screen.height, screen.realSize.1) &&
      Dot(d, c.w) == -c.screenDist
  {
    var fu := FactorU(x, screen.width, screen.realSize.0);
    var fv := FactorV(y, screen.height, screen.realSize.1);
    DotLinearCombine(fu, c.u, fv, c.v, -c.screenDist, c.w, c.u);
    DotLinearCombine(fu, c.u, fv, c.v, -c.screenDist, c.w, c.v);
    DotLinearCombine(fu, c.u, fv, c.v, -c.screenDist, c.w, c.w);
    DotSymmetric(c.u, c.v);
    DotSymmetric(c.u, c.w);
    DotSymmetric(c.v, c.w);
  }

  // ---------------------------------------------------------------------------
  // The nearest-hit scan
  // ---------------------------------------------------------------------------

  /** `(info.position - self.eye).mag()`: infinite for a position at infinity. */
  function EyeDistance(eye: Vec3, p: Position): Dist
  {
    match p
    case At(q) => Length(Sub(q, eye))
    case AtInfinity(_) => Infinite
  }

  /** The loop state of `trace_ray`: `min_distance` and `result`. */
  datatype ScanState = ScanState(minDistance: Dist, result: Option<Color>)

  const Start := ScanState(Infinite, None)

  /**
   * One iteration of `for surface in scene`: a surface that does not answer
   * leaves the state alone; one that answers replaces the result with its
   * colour, so a result once set is never cleared.
   */
  function Step(eye: Vec3, ray: Ray, s: Surface, st: ScanState): (r: ScanState)
    ensures Hit(s, ray, st.minDistance).None? ==> r == st
    ensures Hit(s, ray, st.minDistance).Some? ==> r.result == Some(ColorOf(Hit(s, ray, st.minDistance).value))
    ensures st.result.Some? ==> r.result.Some?
  {
    match Hit(s, ray, st.minDistance)
    case Some(info) => ScanState(EyeDistance(eye, info.position), Some(ColorOf(info)))
    case None => st
  }

  /** The state after scanning `scene` in order: while there is no result, the minimum is still infinite. */
  function Scan(eye: Vec3, ray: Ray, scene: seq<Surface>): (r: ScanState)
    ensures r.result.None? ==> r.minDistance.Infinite?
    decreases |scene|
  {
    if |scene| == 0 then Start
    else Step(eye, ray, scene[|scene| - 1], Scan(eye, ray, scene[..|scene| - 1]))
  }

  /** No result yet means the minimum is still infinite and no surface has answered at infinity. */
  lemma {:induction false} ScanNothingYet(eye: Vec3, ray: Ray, scene: seq<Surface>)
    ensures Scan(eye, ray, scene).result.None? ==> Scan(eye, ray, scene).minDistance.Infinite?
    ensures Scan(eye, ray, scene).result.None? <==>
              forall i :: 0 <= i < |scene| ==> Hit(scene[i], ray, Infinite).None?
    decreases |scene|
  {
    if |scene| > 0 {
      var n := |scene| - 1;
      var prefix := scene[..n];
      ScanNothingYet(eye, ray, prefix);
      assert forall i :: 0 <= i < n ==> prefix[i] == scene[i];
    }
  }

  /** `Camera::trace_ray`: the colour of the last surface the scan accepted, `None` iff none answers at infinity. */
  function TraceRay(c: Camera, ray: Ray, scene: seq<Surface>): (r: Option<Color>)
    ensures r.None? <==> forall i :: 0 <= i < |scene| ==> Hit(scene[i], ray, Infinite).None?
  {
    ScanNothingYet(c.eye, ray, scene);
    Scan(c.eye, ray, scene).result
  }

  /** `Camera::trace`: the traced colour as bytes, black when nothing was hit. */
  function Trace(c: Camera, ray: Ray, scene: seq<Surface>): (px: Rgb8)
    ensures TraceRay(c, ray, scene).None? ==> px == BlackRgb8
    ensures TraceRay(c, ray, scene).Some? ==> px == ToRgb8(TraceRay(c, ray, scene).value)
  {
    match TraceRay(c, ray, scene)
    case Some(color) => ToRgb8(color)
    case None => BlackRgb8
  }

  /** The distance the scan records for a fixed hit; no hit counts as infinitely far. */
  function HitDistance(eye: Vec3, p: Option<HitInfo>): Dist
  {
    if p.Some? then EyeDistance(eye, p.value.position) else Infinite
  }

  /**
   * The surface behaves as a fixed hit `p` along this ray: it answers `p`
   * exactly when `p` is strictly closer to the eye than the current minimum.
   */
  ghost predicate FixedAt(eye: Vec3, ray: Ray, s: Surface, p: Option<HitInfo>)
  {
    forall md: Dist {:trigger Hit(s, ray, md)} ::
      Hit(s, ray, md) == if Closer(HitDistance(eye, p), md) then p else None
  }

  /**
   * A shape whose candidate is always the same point, offered at least
   * whenever that point is strictly closer than the minimum, and whose
   * material places the hit at that point, is a fixed hit for a ray from the
   * eye: the gate on the distance from the ray's origin and the scan's
   * distance from the eye coincide.
   */
  lemma PrimaryRayGateAgrees(eye: Vec3, ray: Ray, s: Surface, pt: Vec3, p: Option<HitInfo>)
    requires ray.origin == eye && s.Shape?
    requires forall md: Dist {:trigger s.surfaceHit(ray, md)} ::
               s.surfaceHit(ray, md) == Some(pt) ||
               (s.surfaceHit(ray, md).None? && !Closer(Length(Sub(pt, eye)), md))
    requires s.material(ray, pt, s.normalAt(pt)) == p
    requires p.Some? ==> p.value.position == At(pt)
    ensures FixedAt(eye, ray, s, p)
  {
    forall md: Dist
      ensures Hit(s, ray, md) == if Closer(HitDistance(eye, p), md) then p else None
    {
      if s.surfaceHit(ray, md).Some? {
        assert SurfaceHit(s, ray, md) == Some(pt);
      }
    }
  }

  /**
   * Among the first `n` distances, `k` is the earliest index attaining the
   * least finite one: strictly closer than every earlier distance, and no
   * later one strictly closer.
   */
  ghost predicate EarliestNearest(ds: seq<Dist>, n: nat, k: int)
  {
    0 <= k < n <= |ds| && ds[k].Finite? &&
    (forall j :: 0 <= j < k ==> Closer(ds[k], ds[j])) &&
    (forall j :: k < j < n ==> !Closer(ds[j], ds[k]))
  }

  lemma EarliestNearestUnique(ds: seq<Dist>, n: nat, k1: int, k2: int)
    requires EarliestNearest(ds, n, k1) && EarliestNearest(ds, n, k2)
    ensures k1 == k2
  {
    CloserStrictTotalOrder(ds[k1], ds[k2], ds[k1]);
  }

  /** How the earliest nearest index moves when one more distance is considered. */
  lemma EarliestNearestExtend(ds: seq<Dist>, m: nat, k0: int)
    requires m < |ds| && EarliestNearest(ds, m, k0)
    ensures Closer(ds[m], ds[k0]) ==> EarliestNearest(ds, m + 1, m)
    ensures !Closer(ds[m], ds[k0]) ==> EarliestNearest(ds, m + 1, k0)
  {
    if Closer(ds[m], ds[k0]) {
      forall j | 0 <= j < m
        ensures Closer(ds[m], ds[j])
      {
        CloserStrictTotalOrder(ds[m], ds[k0], ds[j]);
        if j > k0 {
          CloserStrictTotalOrder(ds[j], ds[k0], ds[m]);
        }
      }
    }
  }

  /** One scan step over a fixed hit: it replaces the state exactly when the hit is strictly closer. */
  lemma StepFixed(eye: Vec3, ray: Ray, s: Surface, p: Option<HitInfo>, st: ScanState)
    requires FixedAt(eye, ray, s, p)
    ensures Closer(HitDistance(eye, p), st.minDistance) ==>
              p.Some? && Step(eye, ray, s, st) == ScanState(HitDistance(eye, p), Some(ColorOf(p.value)))
    ensures !Closer(HitDistance(eye, p), st.minDistance) ==> Step(eye, ray, s, st) == st
  {
    assert Hit(s, ray, st.minDistance) == if Closer(HitDistance(eye, p), st.minDistance) then p else None;
  }

  /**
   * The inductive step of `ScanOfFixedHits`: if `st` is the state the scan
   * has after the first `m` fixed hits, one more step over the fixed hit
   * `ps[m]` gives the state after the first `n = m + 1`.
   */
  lemma StepOfFixedHits(eye: Vec3, ray: Ray, s: Surface, ps: seq<Option<HitInfo>>, ds: seq<Dist>, m: nat, n: nat, st: ScanState, r: ScanState)
    requires |ps| == |ds| && n == m + 1 && n <= |ds|
    requires FixedAt(eye, ray, s, ps[m]) && ds[m] == HitDistance(eye, ps[m])
    requires forall i :: 0 <= i < |ds| ==> ds[i] == HitDistance(eye, ps[i])
    requires (forall i :: 0 <= i < m ==> ds[i].Infinite?) ==> st == Start
    requires (exists i :: 0 <= i < m && ds[i].Finite?) ==> exists k :: EarliestNearest(ds, m, k)
    requires forall k :: EarliestNearest(ds, m, k) ==>
               ps[k].Some? && st == ScanState(ds[k], Some(ColorOf(ps[k].value)))
    requires r == Step(eye, ray, s, st)
    ensures (forall i :: 0 <= i < n ==> ds[i].Infinite?) ==> r == Start
    ensures (exists i :: 0 <= i < n && ds[i].Finite?) ==> exists k :: EarliestNearest(ds, n, k)
    ensures forall k :: EarliestNearest(ds, n, k) ==>
              ps[k].Some? && r == ScanState(ds[k], Some(ColorOf(ps[k].value)))
  {
    StepFixed(eye, ray, s, ps[m], st);
    var winner: int;
    if forall i :: 0 <= i < m ==> ds[i].Infinite? {
      if ds[m].Infinite? {
        return;
      }
      winner := m;
    } else {
      var k0 :| EarliestNearest(ds, m, k0);
      EarliestNearestExtend(ds, m, k0);
      winner := if Closer(ds[m], ds[k0]) then m else k0;
    }
    assert EarliestNearest(ds, n, winner);
    forall k | EarliestNearest(ds, n, k)
      ensures ps[k].Some? && r == ScanState(ds[k], Some(ColorOf(ps[k].value)))
    {
      EarliestNearestUnique(ds, n, k, winner);
    }
  }

  /** The scan's state after the first `n` surfaces of a scene of fixed hits. */
  lemma {:induction false} ScanOfFixedHits(eye: Vec3, ray: Ray, scene: seq<Surface>, ps: seq<Option<HitInfo>>, ds: seq<Dist>, n: nat)
    requires |ps| == |scene| == |ds| && n <= |scene|
    requires forall i :: 0 <= i < |scene| ==> FixedAt(eye, ray, scene[i], ps[i])
    requires forall i :: 0 <= i < |ds| ==> ds[i] == HitDistance(eye, ps[i])
    ensures (forall i :: 0 <= i < n ==> ds[i].Infinite?) ==> Scan(eye, ray, scene[..n]) == Start
    ensures (exists i :: 0 <= i < n && ds[i].Finite?) ==> exists k :: EarliestNearest(ds, n, k)
    ensures forall k :: EarliestNearest(ds, n, k) ==>
              ps[k].Some? && Scan(eye, ray, scene[..n]) == ScanState(ds[k], Some(ColorOf(ps[k].value)))
    decreases n
  {
    if n == 0 {
      return;
    }
    var m := n - 1;
    ScanOfFixedHits(eye, ray, scene, ps, ds, m);
    assert scene[..n][..m] == scene[..m];
    var st := Scan(eye, ray, scene[..m]);
    StepOfFixedHits(eye, ray, scene[m], ps, ds, m, n, st, Scan(eye, ray, scene[..n]));
  }

  /**
   * With every surface a fixed hit along the ray (a primary ray), `trace_ray`
   * returns nothing iff no surface is hit at a finite distance, and otherwise
   * the colour of the earliest surface at the least distance: a later
   * surface replaces an earlier one only when strictly closer, so ties keep
   * the earlier surface.
   */
  lemma NearestHit(c: Camera, ray: Ray, scene: seq<Surface>, ps: seq<Option<HitInfo>>, ds: seq<Dist>)
    requires |ps| == |scene| == |ds|
    requires forall i :: 0 <= i < |scene| ==> FixedAt(c.eye, ray, scene[i], ps[i])
    requires forall i :: 0 <= i < |ds| ==> ds[i] == HitDistance(c.eye, ps[i])
    ensures TraceRay(c, ray, scene).None? <==> forall i :: 0 <= i < |ds| ==> ds[i].Infinite?
    ensures forall k :: EarliestNearest(ds, |ds|, k) ==>
              ps[k].Some? && TraceRay(c, ray, scene) == Some(ColorOf(ps[k].value))
  {
    ScanOfFixedHits(c.eye, ray, scene, ps, ds, |scene|);
    assert scene[..|scene|] == scene;
  }

  /** Once the scan holds a finite minimum, a background surface is skipped and changes nothing. */
  lemma BackgroundSkippedAfterFiniteHit(eye: Vec3, ray: Ray, scene: seq<Surface>, i: nat)
    requires i < |scene| && scene[i].Backdrop?
    requires Scan(eye, ray, scene[..i]).minDistance.Finite?
    ensures Scan(eye, ray, scene[..i + 1]) == Scan(eye, ray, scene[..i])
  {
    assert scene[..i + 1][..i] == scene[..i];
  }

  /**
   * While the minimum is infinite, a background surface is shaded with its
   * texture colour along the ray and leaves the minimum infinite, so a later
   * finite hit still replaces it. The hit at infinity counts as infinitely
   * far; with IEEE arithmetic the source instead records NaN when the normal
   * has a zero component, and then accepts nothing after the background.
   */
  lemma BackgroundIsFallback(eye: Vec3, ray: Ray, scene: seq<Surface>, i: nat)
    requires i < |scene| && scene[i].Backdrop?
    requires Scan(eye, ray, scene[..i]).minDistance.Infinite?
    ensures var bg := scene[i].bg;
      Scan(eye, ray, scene[..i + 1]) == ScanState(Infinite, Some(bg.sample(bg.inwardNormal(ray.direction))))
  {
    assert scene[..i + 1][..i] == scene[..i];
    BackdropHit(scene[i].bg, ray, Infinite);
  }

  // ---------------------------------------------------------------------------
  // Rendering
  // ---------------------------------------------------------------------------

  /** `self.trace(self.pixel_to_ray(x, y, &screen), scene, lights, 10)`: the bytes a cell receives. */
  function PixelColor(c: Camera, scene: seq<Surface>, screen: Screen, cell: Cell): Rgb8
    requires cell.0 < screen.width && cell.1 < screen.height
  {
    Trace(c, PixelToRay(c, cell.0, cell.1, screen), scene)
  }

  /** The loop of `render_scene` over a given sequence of cells: each listed cell receives its traced colour. */
  method Paint(c: Camera, scene: seq<Surface>, screen: Screen, cells: seq<Cell>) returns (out: Screen)
    requires Shaped(screen.pixels, screen.width, screen.height)
    requires forall i :: 0 <= i < |cells| ==> cells[i].0 < screen.width && cells[i].1 < screen.height
    ensures out == screen.(pixels := out.pixels)
    ensures Shaped(out.pixels, screen.width, screen.height)
    ensures forall x: nat, y: nat :: x < screen.width && y < screen.height ==>
              out.pixels[x][y] == if (x, y) in cells then PixelColor(c, scene, screen, (x, y)) else screen.pixels[x][y]
  {
    out := screen;
    for i := 0 to |cells|
      invariant out == screen.(pixels := out.pixels)
      invariant Shaped(out.pixels, screen.width, screen.height)
      invariant forall x: nat, y: nat :: x < screen.width && y < screen.height ==>
                  out.pixels[x][y] == if (x, y) in cells[..i] then PixelColor(c, scene, screen, (x, y)) else screen.pixels[x][y]
    {
      var cell := cells[i];
      var px := Trace(c, PixelToRay(c, cell.0, cell.1, screen), scene);
      out := out.(pixels := out.pixels[cell.0 := out.pixels[cell.0][cell.1 := px]]);
      assert cells[..i + 1] == cells[..i] + [cell];
    }
    assert cells[..|cells|] == cells;
  }

  /**
   * `Camera::render_scene`: every cell the screen's iterator yields receives
   * its traced colour; the rest keep theirs. On a new screen that is every
   * pixel except `(0, 0)`, which stays as it was (black).
   */
  method RenderScene(c: Camera, scene: seq<Surface>, screen: Screen) returns (out: Screen)
    requires Shaped(screen.pixels, screen.width, screen.height) && screen.width >= 1 && CursorOk(screen)
    ensures out == screen.(pixels := out.pixels)
    ensures Shaped(out.pixels, screen.width, screen.height)
    ensures forall x: nat, y: nat :: x < screen.width && y < screen.height ==>
              out.pixels[x][y] == if (x, y) in Remaining(screen) then PixelColor(c, scene, screen, (x, y)) else screen.pixels[x][y]
    ensures screen.current == (0, 0) ==>
              forall x: nat, y: nat :: x < screen.width && y < screen.height ==>
                out.pixels[x][y] == if (x, y) == (0, 0) then screen.pixels[0][0] else PixelColor(c, scene, screen, (x, y))
  {
    RemainingRowMajor(screen);
    out := Paint(c, scene, screen, Remaining(screen));
    if screen.current == (0, 0) {
      FreshIteration(screen);
    }
  }

  /** `render_scene` driven by the intended iterator: on a new screen every pixel receives its traced colour. */
  method RenderSceneFixed(c: Camera, scene: seq<Surface>, screen: Screen) returns (out: Screen)
    requires Shaped(screen.pixels, screen.width, screen.height) && screen.width >= 1 && CursorOk(screen)
    ensures out == screen.(pixels := out.pixels)
    ensures Shaped(out.pixels, screen.width, screen.height)
    ensures screen.current == (0, 0) ==>
              forall x: nat, y: nat :: x < screen.width && y < screen.height ==>
                out.pixels[x][y] == PixelColor(c, scene, screen, (x, y))
  {
    var cells := RemainingFixed(screen);
    if screen.current.1 < screen.height {
      FixedIsCursorThenRemaining(screen);
      RemainingRowMajor(screen);
    }
    out := Paint(c, scene, screen, cells);
    if screen.current == (0, 0) {
      FixedFreshIteration(screen);
    }
  }
}

=== FILE: color.dfy ===
/**
 * The colour type of `src/color.rs`: three real channels, nominally in
 * [0, 1], with componentwise blending and conversions to and from 8-bit
 * channel triples and a packed 32-bit word.
 */
module Colors {

  datatype Color = Color(r: real, g: real, b: real)

  const Black := Color(0.0, 0.0, 0.0)

  /** `u8`. */
  type Byte = n: int | 0 <= n < 256

  /** `[u8; 3]`. */
  datatype Rgb8 = Rgb8(r: Byte, g: Byte, b: Byte)

  /** `[u8; 4]`. */
  datatype Rgba8 = Rgba8(r: Byte, g: Byte, b: Byte, a: Byte)

  const BlackRgb8 := Rgb8(0, 0, 0)

  /** `Add<Color>`. */
  function Add(a: Color, b: Color): Color
  {
    Color(a.r + b.r, a.g + b.g, a.b + b.b)
  }

  /** `Mul<Color>`: channel-by-channel product. */
  function Modulate(a: Color, b: Color): Color
  {
    Color(a.r * b.r, a.g * b.g, a.b * b.b)
  }

  /** `Mul<f64>`: every channel times the same factor. */
  function Scale(c: Color, k: real): Color
  {
    Color(c.r * k, c.g * k, c.b * k)
  }

  lemma AddCommutative(a: Color, b: Color)
    ensures Add(a, b) == Add(b, a)
  {
  }

  lemma ModulateCommutative(a: Color, b: Color)
    ensures Modulate(a, b) == Modulate(b, a)
  {
  }

  /** Scaling by 1 changes nothing, and scaling twice multiplies the factors. */
  lemma ScaleLaws(c: Color, k: real, l: real)
    ensures Scale(c, 1.0) == c
    ensures Scale(Scale(c, k), l) == Scale(c, k * l)
    ensures Scale(c, k) == Modulate(c, Color(k, k, k))
  {
  }

  // ---------------------------------------------------------------------------
  // Byte conversions
  // ---------------------------------------------------------------------------

  /** One byte read as a channel: `byte as f64 / 255.0`. */
  function Channel(b: Byte): (v: real)
    ensures 0.0 <= v <= 1.0
    ensures v * 255.0 == b as real
  {
    b as real / 255.0
  }

  /**
   * Rust's `f64 as u8`: truncation toward zero, saturating at both ends
   * (the cast maps NaN to 0, which exact reals do not have).
   */
  function SaturatingToByte(v: real): (b: Byte)
    ensures v < 1.0 ==> b == 0
    ensures v >= 255.0 ==> b == 255
    ensures 0.0 <= v < 256.0 ==> b as real <= v < b as real + 1.0
  {
    if v < 0.0 then 0
    else if v >= 255.0 then 255
    else v.Floor
  }

  /** `From<[u8; 3]>`. */
  function FromRgb8(t: Rgb8): (c: Color)
    ensures 0.0 <= c.r <= 1.0 && 0.0 <= c.g <= 1.0 && 0.0 <= c.b <= 1.0
    ensures c.r * 255.0 == t.r as real && c.g * 255.0 == t.g as real && c.b * 255.0 == t.b as real
  {
    Color(Channel(t.r), Channel(t.g), Channel(t.b))
  }

  /** `From<[u8; 4]>`: the fourth byte plays no part. */
  function FromRgba8(t: Rgba8): (c: Color)
    ensures c == FromRgb8(Rgb8(t.r, t.g, t.b))
  {
    Color(Channel(t.r), Channel(t.g), Channel(t.b))
  }

  /**
   * The byte a channel value becomes: full at 1 and above, zero at 0 and
   * below, and in between the largest byte not above `255 * v`.
   */
  predicate ChannelByte(v: real, b: Byte)
  {
    (v >= 1.0 ==> b == 255) &&
    (v <= 0.0 ==> b == 0) &&
    (0.0 <= v < 1.0 ==> b as real <= v * 255.0 < b as real + 1.0)
  }

  /** `Into<[u8; 3]>`: each channel times 255, truncated and saturated into a byte. */
  function ToRgb8(c: Color): (t: Rgb8)
    ensures ChannelByte(c.r, t.r) && ChannelByte(c.g, t.g) && ChannelByte(c.b, t.b)
  {
    Rgb8(SaturatingToByte(c.r * 255.0), SaturatingToByte(c.g * 255.0), SaturatingToByte(c.b * 255.0))
  }

  /** Over exact reals, a byte triple survives the trip through `Color` unchanged. */
  lemma BytesRoundTrip(t: Rgb8)
    ensures ToRgb8(FromRgb8(t)) == t
  {
    ByteRoundTrip(t.r);
    ByteRoundTrip(t.g);
    ByteRoundTrip(t.b);
  }

  lemma ByteRoundTrip(b: Byte)
    ensures SaturatingToByte(Channel(b) * 255.0) == b
  {
    assert Channel(b) * 255.0 == b as real;
    assert (b as real).Floor == b;
  }

  /** A colour whose channels lie in [0, 1) has, after `Into<[u8; 3]>`, bytes that read back to within 1/255 below it. */
  lemma ToRgb8Below(c: Color)
    requires 0.0 <= c.r < 1.0 && 0.0 <= c.g < 1.0 && 0.0 <= c.b < 1.0
    ensures var back := FromRgb8(ToRgb8(c));
      back.r <= c.r < back.r + 1.0 / 255.0 &&
      back.g <= c.g < back.g + 1.0 / 255.0 &&
      back.b <= c.b < back.b + 1.0 / 255.0
  {
  }

  // ---------------------------------------------------------------------------
  // From<u32>
  // ---------------------------------------------------------------------------

  /** `u32 as u8`: the low eight bits. */
  function LowByte(w: bv32): Byte
  {
    (w & 0xFF) as int
  }

  /**
   * The bytes `From<u32>` builds, as written: each channel is masked out of
   * the word and then shifted right by 6, 4 and 2 bits before the `as u8`
   * truncation.
   */
  function FromU32Bytes(value: bv32): Rgb8
  {
    var red := (value & 0xFF00_0000) >> 6;
    var green := (value & 0x00FF_0000) >> 4;
    var blue := (value & 0x0000_FF00) >> 2;
    Rgb8(LowByte(red), LowByte(green), LowByte(blue))
  }

  /**
   * `From<u32>` as written: no red and no green for any word, and a blue
   * byte made of bits 8 and 9 of the word moved to the top of the byte.
   */
  function FromU32(value: bv32): (c: Color)
    ensures c.r == 0.0 && c.g == 0.0
    ensures c.b * 255.0 == ((((value >> 8) & 3) << 6) as int) as real
  {
    FromU32AsWritten(value);
    FromRgb8(FromU32Bytes(value))
  }

  /**
   * What the shifts in `From<u32>` actually produce: red and green are always
   * zero, and blue keeps only bits 8 and 9 of the word, moved to the top of
   * the byte.
   */
  lemma FromU32AsWritten(value: bv32)
    ensures FromU32Bytes(value) == Rgb8(0, 0, (((value >> 8) & 3) << 6) as int)
  {
  }

  /** A word whose red byte is 0xFF converts to a colour with no red at all. */
  lemma FromU32LosesRed()
    ensures FromU32Bytes(0xFF00_0000).r == 0
    ensures FromU32Bytes(0xFF00_0000) != Rgb8(0xFF, 0, 0)
  {
  }

  /** The packed word 0xRRGGBBAA the mask layout of `From<u32>` describes. */
  function Pack(r: bv8, g: bv8, b: bv8, a: bv8): bv32
  {
    (r as bv32 << 24) | (g as bv32 << 16) | (b as bv32 << 8) | a as bv32
  }

  /**
   * The evidently intended `From<u32>`: red, green and blue are the top
   * three bytes of the word, shifted down by whole bytes.
   */
  function PackedBytes(value: bv32): Rgb8
  {
    Rgb8(LowByte(value >> 24), LowByte(value >> 16), LowByte(value >> 8))
  }

  /** The intended conversion reads back the red, green and blue bytes a word was packed from. */
  lemma PackedBytesRoundTrip(r: bv8, g: bv8, b: bv8, a: bv8)
    ensures PackedBytes(Pack(r, g, b, a)) == Rgb8(r as int, g as int, b as int)
  {
    ShiftsUndoPacking(r as bv32, g as bv32, b as bv32, a as bv32);
    WidenedByte(r);
    WidenedByte(g);
    WidenedByte(b);
  }

  lemma ShiftsUndoPacking(r: bv32, g: bv32, b: bv32, a: bv32)
    requires r <= 0xFF && g <= 0xFF && b <= 0xFF && a <= 0xFF
    ensures ((((r << 24) | (g << 16) | (b << 8) | a) >> 24) & 0xFF) == r
    ensures ((((r << 24) | (g << 16) | (b << 8) | a) >> 16) & 0xFF) == g
    ensures ((((r << 24) | (g << 16) | (b << 8) | a) >> 8) & 0xFF) == b
  {
  }

  lemma WidenedByte(b: bv8)
    ensures b as bv32 <= 0xFF
    ensures LowByte(b as bv32) == b as int
  {
  }

  /** The corrected conversion from a packed word to a colour; `0` is black. */
  function FromPacked(value: bv32): (c: Color)
    ensures value == 0 ==> c == Black
  {
    FromRgb8(PackedBytes(value))
  }

  /** Both the written and the intended conversion send the word 0 to black. */
  lemma ZeroIsBlack()
    ensures FromU32(0) == Black
    ensures FromPacked(0) == Black
  {
  }
}

=== FILE: hitinfo.dfy ===
/**
 * `HitInfo` of `src/surface.rs`: where a ray hit, the normal there, and the
 * colour shading gave it, if any.
 */
module HitInfos {
  import opened Optional
  import opened Math
  import opened Colors

  /**
   * A hit position. The background reports `normal * f64::INFINITY`, a point
   * at infinity in the direction of the normal; `AtInfinity` stands for it.
   */
  datatype Position = At(point: Vec3) | AtInfinity(toward: Vec3)

  datatype HitInfo = HitInfo(color: Option<Color>, position: Position, normal: Vec3)

  /** `HitInfo::new`: no colour yet. */
  function NewHitInfo(position: Position, normal: Vec3): (h: HitInfo)
    ensures h.position == position && h.normal == normal
    ensures ColorOf(h) == Black
  {
    HitInfo(None, position, normal)
  }

  /**
   * `HitInfo::tint`: sets the colour. The source mutates in place and returns
   * a copy of the mutated value; both are this one result.
   */
  function Tint(h: HitInfo, c: Color): (t: HitInfo)
    ensures ColorOf(t) == c
    ensures t.position == h.position && t.normal == h.normal
  {
    h.(color := Some(c))
  }

  /** `HitInfo::color`: the tinted colour, or black (`0.into()`) when there is none. */
  function ColorOf(h: HitInfo): (c: Color)
    ensures h.color.Some? ==> c == h.color.value
    ensures h.color.None? ==> c == Black
  {
    match h.color
    case Some(c) => c
    case None => ZeroIsBlack(); FromU32(0)
  }

  /** Tinting twice keeps only the last colour. */
  lemma TintOverrides(h: HitInfo, c1: Color, c2: Color)
    ensures Tint(Tint(h, c1), c2) == Tint(h, c2)
  {
  }
}

=== FILE: light.dfy ===
/**
 * The lights of `src/light.rs`. Both kinds pre-multiply their colour by the
 * brightness once, at construction. A directional light is infinitely far
 * from every point; a point light's colour may fall off with the inverse
 * square of the distance.
 */
module Lights {
  import opened Math
  import opened Colors

  datatype DirectionalLight = DirectionalLight(direction: Vec3, color: Color)

  datatype PointLight = PointLight(point: Vec3, color: Color, falloff: bool)

  /** A `Box<dyn Light>` of `SceneLights`. */
  datatype Light = Directional(directional: DirectionalLight) | Point(pointLight: PointLight)

  /**
   * `DirectionalLight::new`: the direction normalised (with `invMag`
   * standing for `1 / mag(direction)`), the colour scaled by the brightness.
   */
  function NewDirectional(direction: Vec3, color: Color, brightness: real, invMag: real): (l: DirectionalLight)
    ensures l.color == Colors.Scale(color, brightness)
    ensures IsInverseMagnitude(direction, invMag) ==> Mag2(l.direction) == 1.0
    ensures Cross(l.direction, direction) == Zero
    ensures invMag > 0.0 ==> Dot(l.direction, direction) >= 0.0
  {
    DirectionalLight(Normalize(direction, invMag), Colors.Scale(color, brightness))
  }

  /** `DirectionalLight::direction`: the same stored direction for every hit point. */
  function DirectionalDirection(l: DirectionalLight, hit: Vec3): Vec3
  {
    l.direction
  }

  /**
   * `Light::direction`: a directional light's stored direction; for a point
   * light, the normalised vector from the hit point to the light (`invMag`
   * standing for `1 / mag(point - hit)`).
   */
  function LightDirection(l: Light, hit: Vec3, invMag: real): (d: Vec3)
    ensures l.Directional? ==> d == l.directional.direction
    ensures l.Point? && IsInverseMagnitude(Sub(l.pointLight.point, hit), invMag) ==> Mag2(d) == 1.0
    ensures l.Point? ==> Cross(d, Sub(l.pointLight.point, hit)) == Zero
    ensures l.Point? && invMag > 0.0 ==> Dot(d, Sub(l.pointLight.point, hit)) >= 0.0
  {
    match l
    case Directional(dl) => DirectionalDirection(dl, hit)
    case Point(pl) => Normalize(Sub(pl.point, hit), invMag)
  }

  /** `PointLight::new`: falloff starts switched off. */
  function NewPoint(point: Vec3, color: Color, brightness: real): (l: PointLight)
    ensures l.point == point
    ensures l.color == Colors.Scale(color, brightness)
    ensures !l.falloff
  {
    PointLight(point, Colors.Scale(color, brightness), false)
  }

  /** `PointLight::with_falloff`: switches falloff on and keeps the point and colour. */
  function WithFalloff(l: PointLight): (f: PointLight)
    ensures f.falloff
    ensures f.point == l.point && f.color == l.color
  {
    l.(falloff := true)
  }

  /** `Light::dist_to`: infinite for a directional light, `mag(point - p)` (carried by its square) for a point light. */
  function DistTo(l: Light, p: Vec3): (d: Dist)
    ensures l.Directional? <==> d.Infinite?
    ensures l.Point? ==> d.sq == Mag2(Sub(l.pointLight.point, p))
  {
    match l
    case Directional(_) => Infinite
    case Point(pl) => Length(Sub(pl.point, p))
  }

  /**
   * The side condition of `PointLight::color`: with falloff, the shaded
   * position must not be the light's own point (the source divides by
   * `mag2(point - position)` there and gets an IEEE infinity).
   */
  predicate ColorDefined(l: Light, position: Vec3)
  {
    l.Point? && l.pointLight.falloff ==> Mag2(Sub(l.pointLight.point, position)) != 0.0
  }

  /**
   * `Light::color`: the stored colour, divided by the squared distance for a
   * point light with falloff.
   */
  function LightColor(l: Light, position: Vec3, normal: Vec3): (c: Color)
    requires ColorDefined(l, position)
    ensures l.Directional? ==> c == l.directional.color
    ensures l.Point? && !l.pointLight.falloff ==> c == l.pointLight.color
    ensures l.Point? && l.pointLight.falloff ==>
              Colors.Scale(c, Mag2(Sub(l.pointLight.point, position))) == l.pointLight.color
  {
    match l
    case Directional(dl) => dl.color
    case Point(pl) =>
      if pl.falloff then
        var m := Mag2(Sub(pl.point, position));
        InverseScale(pl.color, m);
        Colors.Scale(pl.color, 1.0 / m)
      else pl.color
  }

  lemma InverseScale(c: Color, m: real)
    requires m != 0.0
    ensures Colors.Scale(Colors.Scale(c, 1.0 / m), m) == c
  {
    ScaleLaws(c, 1.0 / m, m);
    assert (1.0 / m) * m == 1.0;
    ScaleLaws(c, 1.0, 1.0);
  }

  /** Without falloff, a point light's colour depends on neither the position nor the normal. */
  lemma ConstantWithoutFalloff(l: PointLight, p1: Vec3, n1: Vec3, p2: Vec3, n2: Vec3)
    requires !l.falloff
    ensures LightColor(Point(l), p1, n1) == LightColor(Point(l), p2, n2) == l.color
  {
  }

  /** A directional light's direction, colour and distance depend on nothing but the light. */
  lemma DirectionalIgnoresGeometry(l: DirectionalLight, p1: Vec3, n1: Vec3, p2: Vec3, n2: Vec3)
    ensures DirectionalDirection(l, p1) == DirectionalDirection(l, p2)
    ensures LightColor(Directional(l), p1, n1) == LightColor(Directional(l), p2, n2)
    ensures DistTo(Directional(l), p1) == DistTo(Directional(l), p2) == Infinite
  {
  }

  /**
   * Inverse-square falloff: moving the shaded position so that its
   * displacement from the light is multiplied by `k` divides the colour by `k²`.
   * In particular doubling the displacement divides the colour by 4.
   */
  lemma {:induction false} InverseSquareFalloff(l: PointLight, p: Vec3, q: Vec3, k: real, n: Vec3)
    requires l.falloff && k != 0.0
    requires Mag2(Sub(l.point, p)) != 0.0
    requires Sub(l.point, q) == Math.Scale(Sub(l.point, p), k)
    ensures ColorDefined(Point(l), q)
    ensures LightColor(Point(l), q, n) == Colors.Scale(LightColor(Point(l), p, n), 1.0 / (k * k))
  {
    var m := Mag2(Sub(l.point, p));
    var mq := Mag2(Sub(l.point, q));
    ScaleMag2(Sub(l.point, p), k);
    FalloffColor(l, p, n);
    FalloffColor(l, q, n);
    ScaleByReciprocals(l.color, m, k * k, mq);
  }

  lemma FalloffColor(l: PointLight, position: Vec3, n: Vec3)
    requires l.falloff && Mag2(Sub(l.point, position)) != 0.0
    ensures LightColor(Point(l), position, n) == Colors.Scale(l.color, 1.0 / Mag2(Sub(l.point, position)))
  {
  }

  lemma ScaleByReciprocals(c: Color, m: real, kk: real, mq: real)
    requires m != 0.0 && kk != 0.0 && mq == kk * m
    ensures mq != 0.0 && Colors.Scale(c, 1.0 / mq) == Colors.Scale(Colors.Scale(c, 1.0 / m), 1.0 / kk)
  {
    assert 1.0 / mq == (1.0 / m) * (1.0 / kk);
    ScaleLaws(c, 1.0 / m, 1.0 / kk);
  }
}

=== FILE: math.dfy ===
/**
 * The vector algebra of `src/math.rs`: `Vec3` over the reals, its operator
 * impls, `cross`, `linear_combine`, and `Ray`.
 *
 * Floating point is modelled by exact reals. Square roots are not modelled:
 * `normalize` scales by a reciprocal magnitude that the caller supplies, and
 * every distance the source compares is carried by its square (`Dist`).
 */
module Math {

  datatype Vec3 = Vec3(x: real, y: real, z: real)

  /** `Ray { origin, direction }`; the direction need not be a unit vector. */
  datatype Ray = Ray(origin: Vec3, direction: Vec3)

  const Zero := Vec3(0.0, 0.0, 0.0)

  /** `From<(f64, f64, f64)>`: the tuple's components, in order. */
  function FromTuple(t: (real, real, real)): (v: Vec3)
    ensures (v.x, v.y, v.z) == t
  {
    Vec3(t.0, t.1, t.2)
  }

  /** `Add<Vec3>`. */
  function Add(a: Vec3, b: Vec3): Vec3
  {
    Vec3(a.x + b.x, a.y + b.y, a.z + b.z)
  }

  /** `Sub<Vec3>`. */
  function Sub(a: Vec3, b: Vec3): Vec3
  {
    Vec3(a.x - b.x, a.y - b.y, a.z - b.z)
  }

  /** `Mul<Vec3>` (the private `dot`). */
  function Dot(a: Vec3, b: Vec3): real
  {
    a.x * b.x + a.y * b.y + a.z * b.z
  }

  /** `Mul<f64>`. */
  function Scale(v: Vec3, k: real): Vec3
  {
    Vec3(v.x * k, v.y * k, v.z * k)
  }

  /**
   * `Div<f64>`. Dividing by zero gives IEEE infinities in the source; over
   * the reals the divisor must be non-zero.
   */
  function Div(v: Vec3, k: real): (r: Vec3)
    requires k != 0.0
    ensures r == Scale(v, 1.0 / k)
  {
    Vec3(v.x / k, v.y / k, v.z / k)
  }

  /** `mag2`: the squared length, which is the vector dotted with itself. */
  function Mag2(v: Vec3): (r: real)
    ensures r == Dot(v, v)
    ensures r >= 0.0
  {
    SquareNonNegative(v.x);
    SquareNonNegative(v.y);
    SquareNonNegative(v.z);
    v.x * v.x + v.y * v.y + v.z * v.z
  }

  lemma SquareNonNegative(a: real)
    ensures a * a >= 0.0
  {
    if a < 0.0 {
      assert a * a == (-a) * (-a);
    }
  }

  /** `cross`: a vector crossed with itself, or with the zero vector, is the zero vector. */
  function Cross(a: Vec3, b: Vec3): (r: Vec3)
    ensures a == b ==> r == Zero
    ensures a == Zero || b == Zero ==> r == Zero
  {
    Vec3(a.y * b.z - a.z * b.y,
         a.z * b.x - a.x * b.z,
         a.x * b.y - a.y * b.x)
  }

  /** `linear_combine(a, u, b, v, c, w)`: the same vector the operator impls build as `u*a + v*b + w*c`. */
  function LinearCombine(a: real, va: Vec3, b: real, vb: Vec3, c: real, vc: Vec3): (r: Vec3)
    ensures r == Add(Add(Scale(va, a), Scale(vb, b)), Scale(vc, c))
  {
    Vec3(a * va.x + b * vb.x + c * vc.x,
         a * va.y + b * vb.y + c * vc.y,
         a * va.z + b * vb.z + c * vc.z)
  }

  /** `k` is `1 / mag(v)`: the factor `normalize` multiplies by. */
  predicate IsInverseMagnitude(v: Vec3, k: real)
  {
    k > 0.0 && k * k * Mag2(v) == 1.0
  }

  /**
   * `normalize`, with the reciprocal magnitude `k` supplied by the caller:
   * the result is parallel to `v` (their cross product vanishes) and, for a
   * positive `k`, on the same side; when `k` is `1 / mag(v)` it has unit length.
   */
  function Normalize(v: Vec3, k: real): (n: Vec3)
    ensures IsInverseMagnitude(v, k) ==> Mag2(n) == 1.0
    ensures Cross(n, v) == Zero
    ensures k > 0.0 ==> Dot(n, v) >= 0.0
  {
    NormalizeFacts(v, k);
    Scale(v, k)
  }

  lemma NormalizeFacts(v: Vec3, k: real)
    ensures IsInverseMagnitude(v, k) ==> Mag2(Scale(v, k)) == 1.0
    ensures k > 0.0 ==> Dot(Scale(v, k), v) >= 0.0
  {
    ScaleMag2(v, k);
    DotScale(v, k, v);
    var m := Mag2(v);
    assert Dot(v, v) == m;
    if k > 0.0 {
      assert k * m >= 0.0;
    }
  }

  // ---------------------------------------------------------------------------
  // Algebraic laws of the operator impls
  // ---------------------------------------------------------------------------

  lemma DotSymmetric(a: Vec3, b: Vec3)
    ensures Dot(a, b) == Dot(b, a)
  {
  }

  lemma AddCommutative(a: Vec3, b: Vec3)
    ensures Add(a, b) == Add(b, a)
  {
  }

  /** Subtraction undoes addition and addition undoes subtraction. */
  lemma SubInvertsAdd(a: Vec3, b: Vec3)
    ensures Add(Sub(a, b), b) == a
    ensures Sub(Add(a, b), b) == a
  {
  }

  lemma CrossAntiCommutative(a: Vec3, b: Vec3)
    ensures Cross(a, b) == Scale(Cross(b, a), -1.0)
  {
  }

  /** The cross product is orthogonal to both of its operands. */
  lemma CrossOrthogonal(a: Vec3, b: Vec3)
    ensures Dot(Cross(a, b), a) == 0.0
    ensures Dot(Cross(a, b), b) == 0.0
  {
  }

  /** Lagrange's identity: `|a × b|² = |a|²|b|² − (a·b)²`. */
  lemma CrossMag2(a: Vec3, b: Vec3)
    ensures Mag2(Cross(a, b)) == Mag2(a) * Mag2(b) - Dot(a, b) * Dot(a, b)
  {
    Lagrange(a.x, a.y, a.z, b.x, b.y, b.z);
  }

  lemma Lagrange(a1: real, a2: real, a3: real, b1: real, b2: real, b3: real)
    ensures (a2 * b3 - a3 * b2) * (a2 * b3 - a3 * b2)
          + (a3 * b1 - a1 * b3) * (a3 * b1 - a1 * b3)
          + (a1 * b2 - a2 * b1) * (a1 * b2 - a2 * b1)
         == (a1 * a1 + a2 * a2 + a3 * a3) * (b1 * b1 + b2 * b2 + b3 * b3)
          - (a1 * b1 + a2 * b2 + a3 * b3) * (a1 * b1 + a2 * b2 + a3 * b3)
  {
  }

  /** Scaling a vector by `k` scales its squared length by `k²`. */
  lemma ScaleMag2(v: Vec3, k: real)
    ensures Mag2(Scale(v, k)) == k * k * Mag2(v)
  {
  }

  /** The dot product is linear in a scaled operand. */
  lemma DotScale(v: Vec3, k: real, t: Vec3)
    ensures Dot(Scale(v, k), t) == k * Dot(v, t)
  {
  }

  /** Dotting a linear combination distributes over its three terms. */
  lemma DotLinearCombine(a: real, va: Vec3, b: real, vb: Vec3, c: real, vc: Vec3, t: Vec3)
    ensures Dot(LinearCombine(a, va, b, vb, c, vc), t) == a * Dot(va, t) + b * Dot(vb, t) + c * Dot(vc, t)
  {
    Distribute3(a, va.x, b, vb.x, c, vc.x, t.x);
    Distribute3(a, va.y, b, vb.y, c, vc.y, t.y);
    Distribute3(a, va.z, b, vb.z, c, vc.z, t.z);
  }

  lemma Distribute3(a: real, p: real, b: real, q: real, c: real, r: real, t: real)
    ensures (a * p + b * q + c * r) * t == a * (p * t) + b * (q * t) + c * (r * t)
  {
  }

  // ---------------------------------------------------------------------------
  // Distances
  // ---------------------------------------------------------------------------

  /**
   * A distance as the source compares it: finite or `f64::INFINITY`. A
   * finite distance is carried by its square: since `sqrt` is strictly
   * increasing on the non-negative reals, each comparison between two
   * `mag()` values has the outcome of the comparison between their squares.
   */
  datatype Dist = Finite(sq: real) | Infinite

  /** The distance `mag(v)`, carried by its square `mag2(v)`. */
  function Length(v: Vec3): (d: Dist)
    ensures d.Finite? && d.sq == Mag2(v) && d.sq >= 0.0
  {
    Finite(Mag2(v))
  }

  /** The strict `<` between two distances; nothing is below infinity's own level. */
  predicate Closer(a: Dist, b: Dist)
  {
    match (a, b)
    case (Finite(p), Finite(q)) => p < q
    case (Finite(_), Infinite) => true
    case (Infinite, _) => false
  }

  /** `Closer` is a strict total order: irreflexive, transitive, and total on distinct values. */
  lemma CloserStrictTotalOrder(a: Dist, b: Dist, c: Dist)
    ensures !Closer(a, a)
    ensures Closer(a, b) && Closer(b, c) ==> Closer(a, c)
    ensures a != b ==> Closer(a, b) || Closer(b, a)
    ensures !(Closer(a, b) && Closer(b, a))
  {
  }
}

=== FILE: option.dfy ===
/** Rust's `Option<T>`, used for every "maybe a hit" answer of the ray tracer. */
module Optional {

  datatype Option<T> = None | Some(value: T)
}

=== FILE: screen.dfy ===
/**
 * `Screen` of `src/camera.rs`: the pixel grid a render writes into, and the
 * iterator over its cells that drives `render_scene` and `export`.
 *
 * The iterator keeps a cursor `current`, starting at `(0, 0)`. Each call of
 * `next` first moves the cursor one cell on in row-major order (x fastest,
 * wrapping into the next row), and only then yields it; the iteration ends
 * once the cursor's row reaches the height. So the cell `(0, 0)` is never
 * yielded. `NextFixed` is the evidently intended iterator, which yields the
 * cursor before moving it.
 */
module Screens {
  import opened Optional
  import opened Colors

  /** A pixel coordinate `(x, y)`: column, then row. */
  type Cell = (nat, nat)

  /** `pixels[x][y]`: `width` columns of `height` pixels each; `realSize` is the `real` (physical width, height) pair. */
  datatype Screen = Screen(realSize: (real, real), width: nat, height: nat, pixels: seq<seq<Rgb8>>, current: Cell)

  /** The grid has `width` columns of `height` pixels. */
  predicate Shaped(pixels: seq<seq<Rgb8>>, width: nat, height: nat)
  {
    |pixels| == width && forall x :: 0 <= x < width ==> |pixels[x]| == height
  }

  /** `Screen::init_screen`: `width` columns, each of `height` black pixels. */
  method InitScreen(width: nat, height: nat) returns (pixels: seq<seq<Rgb8>>)
    ensures Shaped(pixels, width, height)
    ensures forall x, y :: 0 <= x < width && 0 <= y < height ==> pixels[x][y] == BlackRgb8
  {
    pixels := [];
    for x := 0 to width
      invariant |pixels| == x
      invariant forall i :: 0 <= i < x ==> |pixels[i]| == height
      invariant forall i, j :: 0 <= i < x && 0 <= j < height ==> pixels[i][j] == BlackRgb8
    {
      pixels := pixels + [[]];
      for y := 0 to height
        invariant |pixels| == x + 1
        invariant |pixels[x]| == y
        invariant forall i :: 0 <= i < x ==> |pixels[i]| == height
        invariant forall i, j :: 0 <= i < x && 0 <= j < height ==> pixels[i][j] == BlackRgb8
        invariant forall j :: 0 <= j < y ==> pixels[x][j] == BlackRgb8
      {
        pixels := pixels[x := pixels[x] + [BlackRgb8]];
      }
    }
  }

  /** `Screen::new`: a black grid of the given size, the cursor at `(0, 0)`. */
  method NewScreen(width: nat, height: nat, realWidth: real, realHeight: real) returns (s: Screen)
    ensures s.width == width && s.height == height && s.realSize == (realWidth, realHeight)
    ensures s.current == (0, 0)
    ensures Shaped(s.pixels, width, height)
    ensures forall x, y :: 0 <= x < width && 0 <= y < height ==> s.pixels[x][y] == BlackRgb8
  {
    var pixels := InitScreen(width, height);
    s := Screen((realWidth, realHeight), width, height, pixels, (0, 0));
  }

  // ---------------------------------------------------------------------------
  // The iterator
  // ---------------------------------------------------------------------------

  /** Position of a cell in row-major order. */
  function RowMajorIndex(width: nat, c: Cell): nat
  {
    c.1 * width + c.0
  }

  /** The cursor moves one cell on: along the row, or to the start of the next row. */
  function Advance(s: Screen): (t: Screen)
    ensures t == s.(current := t.current)
    ensures t.current.1 >= s.current.1
    ensures s.current.0 < s.width ==>
              RowMajorIndex(s.width, t.current) == RowMajorIndex(s.width, s.current) + 1
    ensures s.width >= 1 ==> t.current.0 < s.width
  {
    var x := s.current.0 + 1;
    if x >= s.width then s.(current := (0, s.current.1 + 1)) else s.(current := (x, s.current.1))
  }

  /** `Iterator::next` as written: advance, then yield the new cursor unless its row is past the last. */
  function Next(s: Screen): (r: (Screen, Option<Cell>))
    ensures r.0 == Advance(s)
    ensures r.1.Some? <==> r.0.current.1 < s.height
    ensures r.1.Some? ==> r.1.value == r.0.current
    ensures s.width >= 1 && r.1.Some? ==> r.1.value.0 < s.width && r.1.value.1 < s.height
  {
    var t := Advance(s);
    if t.current.1 >= t.height then (t, None) else (t, Some(t.current))
  }

  /** The cursor is inside a row, or at the start of one: true of a new screen and kept by `next`. */
  predicate CursorOk(s: Screen)
  {
    s.current.0 < s.width || s.current.0 == 0
  }

  /** The cells the iterator still yields, in order, until its first `None`. */
  function Remaining(s: Screen): seq<Cell>
    requires CursorOk(s)
    decreases s.height - s.current.1, s.width - s.current.0
  {
    var (t, item) := Next(s);
    match item
    case None => []
    case Some(c) => [c] + Remaining(t)
  }

  /** The state after `k` calls of `next`. */
  function Iterate(s: Screen, k: nat): Screen
    decreases k
  {
    if k == 0 then s else Iterate(Next(s).0, k - 1)
  }

  /** Once `next` has returned `None`, every later call returns `None` too. */
  lemma {:induction false} ExhaustedStaysExhausted(s: Screen, k: nat)
    requires Next(s).1.None?
    ensures Next(Iterate(Next(s).0, k)).1.None?
    decreases k
  {
    if k > 0 {
      ExhaustedStaysExhausted(Next(s).0, k - 1);
    }
  }

  lemma MulMonotone(a: nat, b: nat, w: nat)
    requires a <= b
    ensures a * w <= b * w
  {
  }

  /** Within a row of width `w`, a cell's row-major index determines the cell. */
  lemma RowMajorIndexInjective(w: nat, a: Cell, b: Cell)
    requires a.0 < w && b.0 < w
    requires RowMajorIndex(w, a) == RowMajorIndex(w, b)
    ensures a == b
  {
    if a.1 < b.1 {
      MulMonotone(a.1 + 1, b.1, w);
      assert false;
    } else if b.1 < a.1 {
      MulMonotone(b.1 + 1, a.1, w);
      assert false;
    }
  }

  /**
   * From any cursor, the iterator yields the in-range cells whose row-major
   * indices follow the cursor's, consecutively, up to the last cell.
   */
  lemma {:induction false} RemainingRowMajor(s: Screen)
    requires CursorOk(s) && s.width >= 1
    ensures var r := Remaining(s);
      var i0 := RowMajorIndex(s.width, s.current);
      |r| == (if i0 + 1 < s.width * s.height then s.width * s.height - 1 - i0 else 0) &&
      forall i :: 0 <= i < |r| ==>
        r[i].0 < s.width && r[i].1 < s.height && RowMajorIndex(s.width, r[i]) == i0 + 1 + i
    decreases s.height - s.current.1, s.width - s.current.0
  {
    var w, h := s.width, s.height;
    var t := Advance(s);
    var it := RowMajorIndex(w, t.current);
    assert it == RowMajorIndex(w, s.current) + 1;
    if t.current.1 >= h {
      MulMonotone(h, t.current.1, w);
      assert Remaining(s) == [];
    } else {
      RemainingRowMajor(t);
      MulMonotone(t.current.1 + 1, h, w);
      assert it < w * h;
      var r := Remaining(s);
      assert r == [t.current] + Remaining(t);
      forall i | 0 <= i < |r|
        ensures r[i].0 < w && r[i].1 < h && RowMajorIndex(w, r[i]) == RowMajorIndex(w, s.current) + 1 + i
      {
        if i > 0 {
          assert r[i] == Remaining(t)[i - 1];
        }
      }
    }
  }

  /** A list of in-grid cells with row-major indices `1, 2, …` in order holds every other in-grid cell. */
  lemma RowMajorFromOneCovers(w: nat, h: nat, r: seq<Cell>, c: Cell)
    requires w >= 1 && |r| == w * h - 1
    requires forall i :: 0 <= i < |r| ==> r[i].0 < w && r[i].1 < h && RowMajorIndex(w, r[i]) == 1 + i
    requires c.0 < w && c.1 < h && c != (0, 0)
    ensures c in r
  {
    var k := RowMajorIndex(w, c);
    MulMonotone(c.1 + 1, h, w);
    if c.0 == 0 {
      MulMonotone(1, c.1, w);
    }
    assert 1 <= k < w * h;
    RowMajorIndexInjective(w, c, r[k - 1]);
  }

  /** A list of cells with row-major indices `1, 2, …` in order is strictly increasing and misses `(0, 0)`. */
  lemma RowMajorFromOneOrdered(w: nat, r: seq<Cell>)
    requires forall i :: 0 <= i < |r| ==> RowMajorIndex(w, r[i]) == 1 + i
    ensures (0, 0) !in r
    ensures forall i, j :: 0 <= i < j < |r| ==> RowMajorIndex(w, r[i]) < RowMajorIndex(w, r[j])
  {
  }

  /**
   * From a new screen of width at least 1, the iterator yields every cell of
   * the grid except `(0, 0)`, each once, in row-major order with x fastest:
   * `width * height - 1` cells.
   */
  lemma FreshIteration(s: Screen)
    requires s.current == (0, 0) && s.width >= 1
    ensures CursorOk(s)
    ensures |Remaining(s)| == if s.height == 0 then 0 else s.width * s.height - 1
    ensures forall c :: c in Remaining(s) <==> c.0 < s.width && c.1 < s.height && c != (0, 0)
    ensures forall i, j :: 0 <= i < j < |Remaining(s)| ==>
              RowMajorIndex(s.width, Remaining(s)[i]) < RowMajorIndex(s.width, Remaining(s)[j])
  {
    var w, h := s.width, s.height;
    RemainingRowMajor(s);
    var r := Remaining(s);
    if h == 0 {
      assert w * h == 0;
    } else {
      MulMonotone(1, h, w);
    }
    assert forall i :: 0 <= i < |r| ==> r[i].0 < w && r[i].1 < h && RowMajorIndex(w, r[i]) == 1 + i;
    RowMajorFromOneOrdered(w, r);
    if h == 0 {
      assert r == [];
    } else {
      forall c: Cell | c.0 < w && c.1 < h && c != (0, 0)
        ensures c in r
      {
        RowMajorFromOneCovers(w, h, r, c);
      }
    }
  }

  // ---------------------------------------------------------------------------
  // The intended iterator
  // ---------------------------------------------------------------------------

  /** The iterator as evidently intended: yield the cursor while it is on the grid, then advance. */
  function NextFixed(s: Screen): (r: (Screen, Option<Cell>))
    ensures r.1.Some? <==> s.current.0 < s.width && s.current.1 < s.height
    ensures r.1.Some? ==> r.1.value == s.current && r.0 == Advance(s)
  {
    if s.current.0 < s.width && s.current.1 < s.height then (Advance(s), Some(s.current)) else (s, None)
  }

  /** The cells the intended iterator still yields. */
  function RemainingFixed(s: Screen): seq<Cell>
    requires CursorOk(s)
    decreases s.height - s.current.1, s.width - s.current.0
  {
    var (t, item) := NextFixed(s);
    match item
    case None => []
    case Some(c) => [c] + RemainingFixed(t)
  }

  /** The intended iterator yields the cursor first and then exactly what the written one yields. */
  lemma {:induction false} FixedIsCursorThenRemaining(s: Screen)
    requires CursorOk(s) && s.width >= 1 && s.current.1 < s.height
    ensures RemainingFixed(s) == [s.current] + Remaining(s)
    decreases s.height - s.current.1, s.width - s.current.0
  {
    var t := Advance(s);
    if t.current.1 < s.height {
      FixedIsCursorThenRemaining(t);
    }
  }

  /** From a new screen, the intended iterator yields every cell of the grid, `(0, 0)` first. */
  lemma FixedFreshIteration(s: Screen)
    requires s.current == (0, 0) && s.width >= 1
    ensures CursorOk(s)
    ensures |RemainingFixed(s)| == s.width * s.height
    ensures forall c :: c in RemainingFixed(s) <==> c.0 < s.width && c.1 < s.height
    ensures s.height >= 1 ==> RemainingFixed(s)[0] == (0, 0)
  {
    FreshIteration(s);
    if s.height >= 1 {
      FixedIsCursorThenRemaining(s);
    } else {
      assert s.width * s.height == 0;
    }
  }
}

=== FILE: surface.dfy ===
/**
 * The `Surface` trait of `src/surface.rs` as a closed set of variants, and
 * its default `hit`, which gates a candidate hit on being strictly closer to
 * the ray's origin than the current minimum distance before shading it.
 *
 * Planes and spheres are left abstract: a `Shape` carries
 * their behaviour as functions. Its `material` is `calc_mat` with the scene,
 * the lights and the bounce budget already supplied.
 */
module Surfaces {
  import opened Optional
  import opened Math
  import opened Colors
  import opened HitInfos
  import Background

  datatype Surface =
    | Shape(surfaceHit: (Ray, Dist) -> Option<Vec3>,
            normalAt: Vec3 -> Vec3,
            material: (Ray, Vec3, Vec3) -> Option<HitInfo>,
            shadows: (Ray, Dist) -> bool)
    | Backdrop(bg: Background.BackgroundSurface)

  /** `Surface::surface_hit`. */
  function SurfaceHit(s: Surface, ray: Ray, minDistance: Dist): Option<Vec3>
  {
    match s
    case Shape(surfaceHit, _, _, _) => surfaceHit(ray, minDistance)
    case Backdrop(bg) => Background.SurfaceHit(bg, ray, minDistance)
  }

  /** `Surface::get_normal`. */
  function GetNormal(s: Surface, hit: Vec3): Vec3
  {
    match s
    case Shape(_, normalAt, _, _) => normalAt(hit)
    case Backdrop(bg) => Background.GetNormal(bg, hit)
  }

  /** `Surface::get_material().calc_mat(...)`. */
  function CalcMat(s: Surface, ray: Ray, hitPosition: Vec3, hitNormal: Vec3): Option<HitInfo>
  {
    match s
    case Shape(_, _, material, _) => material(ray, hitPosition, hitNormal)
    case Backdrop(bg) => Background.CalcMat(bg, ray, hitPosition, hitNormal)
  }

  /** `Surface::shadow_hit`. */
  function ShadowHit(s: Surface, ray: Ray, lightDistance: Dist): (occluded: bool)
    ensures s.Backdrop? ==> !occluded
  {
    match s
    case Shape(_, _, _, shadows) => shadows(ray, lightDistance)
    case Backdrop(bg) => Background.ShadowHit(bg, ray, lightDistance)
  }

  /** The gate of `Surface::hit`: the candidate is strictly closer to the ray's origin than the current minimum. */
  predicate Gate(ray: Ray, hit: Vec3, minDistance: Dist)
  {
    Closer(Length(Sub(hit, ray.origin)), minDistance)
  }

  /**
   * `Surface::hit`: nothing unless the surface reports a candidate strictly
   * closer to the ray's origin than `minDistance` (an equally distant one is
   * rejected); otherwise exactly what the material makes of the candidate
   * and its normal.
   */
  function Hit(s: Surface, ray: Ray, minDistance: Dist): (info: Option<HitInfo>)
    ensures SurfaceHit(s, ray, minDistance).None? ==> info.None?
    ensures info.Some? ==> Gate(ray, SurfaceHit(s, ray, minDistance).value, minDistance)
    ensures SurfaceHit(s, ray, minDistance).Some? && Gate(ray, SurfaceHit(s, ray, minDistance).value, minDistance) ==>
              var h := SurfaceHit(s, ray, minDistance).value;
              info == CalcMat(s, ray, h, GetNormal(s, h))
  {
    match SurfaceHit(s, ray, minDistance)
    case None => None
    case Some(h) =>
      if Gate(ray, h, minDistance) then CalcMat(s, ray, h, GetNormal(s, h)) else None
  }

  /** A candidate exactly as far away as the current minimum is rejected. */
  lemma TieRejected(s: Surface, ray: Ray, minDistance: Dist)
    requires SurfaceHit(s, ray, minDistance).Some?
    requires Length(Sub(SurfaceHit(s, ray, minDistance).value, ray.origin)) == minDistance
    ensures Hit(s, ray, minDistance).None?
  {
  }

  /**
   * The background through the default `hit`: shaded exactly while the
   * minimum distance is infinite, with the texture colour along its normal at
   * the ray direction, and placed at infinity.
   */
  lemma BackdropHit(bg: Background.BackgroundSurface, ray: Ray, minDistance: Dist)
    ensures Hit(Backdrop(bg), ray, minDistance).Some? <==> minDistance.Infinite?
    ensures minDistance.Infinite? ==>
              var n := bg.inwardNormal(ray.direction);
              var info := Hit(Backdrop(bg), ray, minDistance).value;
              ColorOf(info) == bg.sample(n) && info.position == AtInfinity(n) && info.normal == n
  {
  }
}
